=== FILE: README.md ===
# Guessing game — a Dafny model of its decision logic

The guessing game is a terminal game in Go. One to ten players take turns
guessing a secret number in a range that depends on the difficulty level. Each
wrong guess within the range gets a hint: "Too low!" or "Too high!" followed by
a proximity phrase. A guess outside the range, a non-number, `help`, a timeout
or a read error is an invalid turn. The first correct guess ends the session and the winner's score is
computed from the attempts used, the time taken and the difficulty. The
scores are added into an all-time leaderboard, and a record of the game is
appended to a history.

This project models the deterministic part of that program as pure Dafny
functions over immutable data and proves properties about it. Every input
the program would read from the terminal becomes a parameter: a sequence of
tokens, a sequence of lines, or a sequence of turn inputs. The random draw
and the clock become numbers.

Modules, one per component of `guessing-game.go`:

- `Options` (`options.dfy`): the `Option` type used where an input loop may
  give no answer.
- `Text` (`text.dfy`): `strings.TrimSpace` (the white-space set of Go's
  `unicode.IsSpace`), ASCII `strings.ToLower`, `strconv.Atoi` as the grammar
  "optional sign, one or more decimal digits", `%d` formatting, and
  `contains`, `min` and `max`.
- `Hint` (`hint.dfy`): `getProximityHint` and its 5/15/30 percent thresholds.
- `Difficulty` (`difficulty.dfy`): `getMaxRange`, `generateNumber`, the
  `selectDifficulty` menu and `calculateScore`.
- `Turn` (`turn.dfy`): `handlePlayerTurn`. The read-versus-deadline race
  becomes a turn input that is a line, a read error or a timeout.
- `Menus` (`menus.dfy`): `promptRestart`, `getValidIntInput` and the name
  loop of `getPlayers`.
- `Session` (`session.dfy`): the turn loop of `runGameSession`. It is
  modelled as a function of the roster and of the outcome of each turn.
- `Persistence` (`persistence.dfy`): `updatePersistentData`. Go visits a map
  in an unspecified order, so that order is a parameter.

Two consequences of the code that are easy to miss:

- Typing `help` during a turn does not give the player another try. The
  help text is shown (guessing-game.go:423) and the turn's result carries
  the hint "Help displayed. Please enter your guess:" (guessing-game.go:426).
  `runGameSession` does not print that hint: it prints
  ":( Invalid input. Please enter a valid number." (guessing-game.go:353),
  counts the attempt (guessing-game.go:327) and asks the next player.
- A first-guess win on easy within five seconds scores 990. One attempt
  already costs ten points.

## Model

| member | source | states |
|---|---|---|
| Text.TrimSpace | guessing-game.go:419 | The trimmed line is a slice of the line with only white space before and after it. It has no white space at either end and is empty exactly when the line is white space only. |
| Text.TrimSpaceIdempotent | guessing-game.go:711 | Trimming an already trimmed name changes nothing. |
| Text.TrimSpaceDropsTrailingSpace | guessing-game.go:409-419 | A trailing white-space character, such as the newline `ReadString('\n')` keeps, disappears in the trim. |
| Text.ToLower | guessing-game.go:419 | Lower-casing keeps the length and lowers each ASCII capital in place. |
| Text.ToLowerIdempotent | guessing-game.go:574 | Lower-casing twice is the same as lower-casing once. |
| Text.Atoi | guessing-game.go:432-440 | Parsing succeeds exactly on an optional sign followed by one or more decimal digits. A `-` sign gives a value of at most zero, any other start a value of at least zero. |
| Text.AtoiPlusSign | guessing-game.go:432 | A `+` in front of a run of digits gives the same value as the digits alone. |
| Text.AtoiMinusSign | guessing-game.go:432 | A `-` in front of a run of digits gives the negated value of the digits. |
| Text.AtoiLeadingZero | guessing-game.go:432 | A leading zero in front of a run of digits does not change its value. With the `Itoa` round trip, this fixes the value of every literal. |
| Text.AtoiExamples | guessing-game.go:432 | Leading zeros and a `+` sign are accepted ("007" is 7, "+42" is 42). The empty string, a lone sign, inner blanks and underscores are rejected. |
| Text.Itoa | guessing-game.go:452 | The decimal form of every integer parses back to that integer. It has a minus sign exactly for negative numbers, is "0" exactly for zero, and its digits have no leading zero. |
| Text.ItoaInjective | guessing-game.go:709 | Different numbers print differently, so the default names `Player<i>` of different players differ. |
| Text.Contains | guessing-game.go:1307-1314 | The linear search answers true exactly when the name is in the slice. |
| Text.Min | guessing-game.go:1331-1336 | The result is at most both arguments and equals one of them. |
| Text.Max | guessing-game.go:1353-1358 | The result is at least both arguments and equals one of them. |
| Hint.ProximityHint | guessing-game.go:515-528 | The hint is always one of exactly four phrases. |
| Hint.PercentBelow | guessing-game.go:516-523 | For a non-zero range, "diff/range·100 is at most the limit" is decided exactly by the integer comparison of 100·diff with limit·range. The direction flips for a negative range. |
| Hint.CategoryMatchesPercentage | guessing-game.go:516-527 | For every distance and every non-zero range, the integer thresholds choose the same phrase as the percentage computed exactly and compared with 5, 15 and 30 in order. |
| Hint.ProximityHintMatchesPercentage | guessing-game.go:515-528 | For every non-zero range, the phrase returned is the phrase of the category chosen by the percentage computed exactly. |
| Hint.ThresholdsInclusive | guessing-game.go:518-526 | Distance 0 is "Very close!". A distance of exactly 5%, 15% or 30% of the range gets the closer phrase. More than 30% is "Way off!". |
| Hint.CategoryMonotone | guessing-game.go:518-527 | For a fixed positive range, a larger distance never gets a closer phrase. |
| Difficulty.MaxRange | guessing-game.go:623-635 | The range is 50 exactly for "easy" and 200 exactly for "hard". Every other difficulty, "medium" included, gets 100. |
| Difficulty.GenerateNumber | guessing-game.go:659-663 | For a draw in `[0, max)` the target lies in `[1, max]`. |
| Difficulty.GenerateNumberCoversRange | guessing-game.go:659-663 | Every number of `[1, max]` is the target for some draw. |
| Difficulty.DifficultyChoice | guessing-game.go:577-587 | A normalised menu answer names only "easy", "medium" or "hard". `help` names no level. |
| Difficulty.DifficultySynonyms | guessing-game.go:577-587 | "easy", "1" and "e" pick easy; "medium", "2" and "m" pick medium; "hard", "3" and "h" pick hard. Each holds in both directions. |
| Difficulty.CountedAnswers | guessing-game.go:584-588 | The answers that count against the limit are the normalised tokens other than `help`. |
| Difficulty.SelectFrom | guessing-game.go:568-598 | The menu loop, from any count of invalid answers up to the limit, returns only "easy", "medium" or "hard". |
| Difficulty.SelectDifficulty | guessing-game.go:556-599 | `selectDifficulty` returns only "easy", "medium" or "hard". |
| Difficulty.FirstLevel | guessing-game.go:568-598 | Reference rule: the level named by the first naming answer among the first five counted answers, else "medium". It yields one of the three levels. |
| Difficulty.HelpIsFree | guessing-game.go:584-586 | A `help` token is skipped without using up one of the five invalid answers. |
| Difficulty.NoTokensGiveMedium | guessing-game.go:597-598 | Once the input is used up, the menu falls back to "medium" from any count of invalid answers. |
| Difficulty.SelectFromMatchesFirstLevel | guessing-game.go:568-598 | From any count of invalid answers, the menu loop gives what the reference rule gives on the counted answers with the remaining budget. |
| Difficulty.SelectDifficultyMatchesFirstLevel | guessing-game.go:565-598 | `selectDifficulty` answers with the first level named among the first five counted answers, else "medium". |
| Difficulty.FiveInvalidGiveMedium | guessing-game.go:587-598 | Five answers in a row that are neither a level nor `help` give "medium", whatever follows. |
| Difficulty.NoInputGivesMedium | guessing-game.go:570-598 | With no input at all the menu gives "medium". |
| Difficulty.RawScore | guessing-game.go:824-834 | The score before the multiplier lies between 0 and 1000. |
| Difficulty.CalculateScore | guessing-game.go:822-847 | The score lies between 0 and 2000. For any difficulty other than medium and hard, it is at most 1000 − 10·attempts unless it is 0. |
| Difficulty.ScoreMultiplier | guessing-game.go:824-846 | The raw score is max(0, 1000 − 10·attempts − ⌊seconds⌋/5). Hard doubles it. Medium is ⌊1.5·raw⌋. Easy and every unrecognised difficulty keep it. |
| Difficulty.MediumBonusIsTruncatedProduct | guessing-game.go:841 | The integer medium bonus `(3·raw)/2` equals the truncation of raw·1.5 for every non-negative raw score. |
| Difficulty.ScoreNonIncreasingInAttempts | guessing-game.go:827-846 | For fixed difficulty and time, more attempts never raise the score. |
| Difficulty.ScoreNonIncreasingInTime | guessing-game.go:824-846 | For fixed difficulty and attempts, more elapsed time never raises the score. |
| Difficulty.FirstGuessScores | guessing-game.go:822-846 | One attempt within five seconds scores 990 on easy, 1485 on medium and 1980 on hard. |
| Turn.ClassifyGuess | guessing-game.go:443-473 | A parsed guess is correct exactly when it equals the target. A correct guess is valid. The result carries the guess. |
| Turn.ClassifyTurn | guessing-game.go:409-487 | A line whose trimmed, lower-cased text parses to a number is judged exactly as that number is, whatever its padding, sign, leading zeros or line ending. A turn is correct exactly when such a line parses to the target. A valid turn always comes from a line that parses, and no turn is correct without being valid. |
| Turn.ClassifyGuessCases | guessing-game.go:442-473 | With the target in `[1, max]`: a hit is correct and valid. A guess outside `[1, max]` is invalid, with the range message as its hint. Below or above the target is a valid miss, with "Too low! " or "Too high! " followed by the proximity phrase for the distance. A guess is valid exactly when it is in range. |
| Turn.NonGuessesAreInvalid | guessing-game.go:410-487 | A timeout, a read error, `help` and any text that is not a number are neither correct nor valid. Each result carries its own fixed hint, which `runGameSession` does not print. |
| Turn.NormalizeTypedNumber | guessing-game.go:419 | The decimal form of a number followed by a newline normalises to the decimal form itself. |
| Turn.TypedGuess | guessing-game.go:409-473 | Typing the decimal form of a number and pressing Enter is judged exactly as that number is. |
| Turn.CrLfLineIsJudged | guessing-game.go:419-463 | The line "50\r\n" against target 70 in 1..100 is trimmed to 50 and gets the valid hint "Too low! Getting warmer...". |
| Turn.TooLowGettingWarmer | guessing-game.go:455-463 | Guessing 50 against 70 in 1..100 is a valid miss with the hint "Too low! Getting warmer...". |
| Menus.FirstAnswer | guessing-game.go:985-1006 | A prompt loop gives no answer exactly when no token decides. Otherwise its answer is what some token decides. |
| Menus.RestartAnswer | guessing-game.go:988-1005 | `help` and a blank answer decide nothing. |
| Menus.RestartSynonyms | guessing-game.go:990-996 | After trimming and lower-casing, "yes", "y", "yeah", "yep" and "1" mean another game, and "no", "n", "nope" and "0" mean stop. Nothing else decides. |
| Menus.PromptRestart | guessing-game.go:982-1007 | The restart prompt's answer is the decision of one of the tokens read. It gives none only when no token decides. |
| Menus.IntAnswer | guessing-game.go:761-787 | A token is accepted exactly when its trimmed text parses to a number within the bounds. The number accepted is the parsed one. |
| Menus.ValidIntInput | guessing-game.go:758-789 | The number returned lies within the bounds and is the value of one of the tokens read. There is no number only when no token is acceptable. |
| Menus.ProposedName | guessing-game.go:706-717 | A read proposes the trimmed line, or `Player<i>` when the read failed or the line was blank. It never proposes an empty name. |
| Menus.RegisterFrom | guessing-game.go:703-728 | The loop keeps the names registered so far as a prefix, ends with exactly `n` names without duplicates, and each new name is its default or a name typed. |
| Menus.RegisterPlayers | guessing-game.go:703-730 | The name loop registers exactly `n` non-empty, pairwise different names. Each is `Player<i>` or a trimmed name that was typed. |
| Menus.GetPlayers | guessing-game.go:691-731 | `getPlayers` returns between 1 and 10 names without duplicates, exactly as many as the count `getValidIntInput` read. Without a count there is no roster. |
| Menus.DefaultNameInjective | guessing-game.go:709-716 | `Player<a>` and `Player<b>` are the same name only when a = b. |
| Menus.BlankReadsFrom | guessing-game.go:703-728 | From any player on, blank lines and failed reads complete the roster with default names. |
| Menus.BlankInputGivesDefaultNames | guessing-game.go:703-728 | When every line is blank or fails, the roster is `Player1` … `Player<n>`. |
| Menus.DuplicateIsRejected | guessing-game.go:720-726 | A line proposing a name already registered is consumed and the same player is asked again. |
| Menus.TakenDefaultAtEndOfInput | guessing-game.go:704-726 | At the end of input, a player whose default name is already taken can never be registered. |
| Menus.FirstFreshProposal | guessing-game.go:703-728 | Player `i` is registered under the first proposal not yet taken. The lines proposing taken names are consumed, and player `i + 1` is asked from the line after the accepted one. |
| Menus.FreshTypedNameIsRegistered | guessing-game.go:706-723 | A typed name nobody has taken is registered for the player being asked. |
| Menus.RosterExists | guessing-game.go:703-728 | The loop produces a roster unless one of the default names it may still fall back on is already registered or typed. |
| Menus.PlayersForEveryCount | guessing-game.go:698-731 | After a valid count `n`, and with no typed name equal to some `Player<k>` with `k <= n`, `getPlayers` registers exactly `n` players. |
| Session.PlayRound | guessing-game.go:324-355 | One pass over the roster: the turns so far were taken in roster order and one attempt was counted per turn. A win ends the pass with only the winner's score recorded. |
| Session.PlayRounds | guessing-game.go:321-356 | Whole rounds until a correct turn: the loop guarantees of one pass. Without a win, every outcome has been used. |
| Session.RunSession | guessing-game.go:318-356 | Turn k is played by `Players[k mod n]` with outcome k. `Attempts` is the number of turns played. No turn before the last is correct. The session is won only on a correct turn, and `Scores` then maps only the winner to `calculateScore(Attempts, …)`. Otherwise `Scores` is empty. |
| Session.SessionEndsAtFirstCorrect | guessing-game.go:321-345 | If turn k is the first correct one, the session is won with k + 1 attempts. The score goes to `Players[k mod n]` alone. |
| Session.NoCorrectTurnNoWinner | guessing-game.go:321-356 | Without a correct turn, nobody wins, no score is recorded and every outcome is used. |
| Session.SecondTurnWins | guessing-game.go:324-345 | When the first turn misses and the second hits, the second player wins with two attempts. |
| Session.TimeoutThenWin | guessing-game.go:321-345 | A timed-out turn still counts as an attempt. If the next turn's race then delivers the target, the next player wins with two attempts. |
| Session.HelpPassesTheTurn | guessing-game.go:321-355 | `help` or a non-number uses up the turn. It counts as an attempt, and the next player plays the next turn. |
| Session.SoloFirstGuess | guessing-game.go:330-337 | A lone player typing the target first, on easy within five seconds, wins with 990. |
| Persistence.AddScores | guessing-game.go:930-932 | Each visited player's entry becomes the old total (0 when missing) plus the session score. Other entries are unchanged, and no other keys appear. |
| Persistence.AddScoresIsAccumulated | guessing-game.go:930-932 | In any iteration order, the leaderboard becomes the reference map: old total plus session score for every player of either map. |
| Persistence.AddScoresOrderIndependent | guessing-game.go:930-932 | The leaderboard update does not depend on the order Go visits the scores in. |
| Persistence.BestFrom | guessing-game.go:939-944 | The scan ends with a best score at least the start value and at least every score visited. When it rose, it is held by the player named. |
| Persistence.FindWinner | guessing-game.go:937-944 | The recorded score is at least every session score. When it is above −1, it is the score of the player named. |
| Persistence.BestFromIsFirstMaximum | guessing-game.go:939-944 | On a tie the first player visited with the top score is named, since only a strictly higher score replaces the best. |
| Persistence.UpdatePersistentData | guessing-game.go:928-959 | The leaderboard gains the session's scores. One record is appended exactly when the session has a score, and nothing else changes in the history. The record names a best scorer and keeps the difficulty, attempts, duration and player count. |
| Persistence.NoScoresNoChange | guessing-game.go:930-958 | A session without scores leaves the leaderboard and the history as they were. |
| Persistence.RecordOfOne | guessing-game.go:930-958 | A single score `s` for `w` appends a record with winner `w` and final score `s`, and adds `s` to `w`'s entry. |
| Persistence.WonSessionIsRecorded | guessing-game.go:928-958 | After a won session, the history gains one record naming the winner of the turn loop, with the session's attempts and `calculateScore` as its final score. The winner's leaderboard entry grows by that score. |

## Left out

- The concurrent read in `handlePlayerTurn` (goroutine, buffered channel, `select`, `time.After`) is replaced by its three possible results: a line, a read error or a timeout. The time limit itself is not modelled.
- Session.TimeoutThenWin, Session.RunSession: a `TurnInput` is what the race of one turn delivered, not the line typed at that turn. After a timeout, the abandoned goroutine (guessing-game.go:405-416) is still blocked in `reader.ReadString` on the session's shared reader. Reading the code, that pending read takes the next line typed and sends it to a channel nobody receives from, so the line is lost and the following turn waits for a later line. The model does not follow which keystrokes reach which turn.
- `rand.Seed` and `rand.Intn` become the `draw` parameter of `GenerateNumber`. `time.Now` and `time.Since` become the elapsed nanoseconds passed to `CalculateScore`, `RunSession` and `UpdatePersistentData`. The record's time stamp is dropped.
- Every printed message, the ANSI colours, `printColoredHeader`, `printColoredMessage`, `printSeparator`, `displayGameResults`, `displayInGameHelp`, `displayDifficultyHelp`, `displayRangeHelp` and `displayFinalStatistics`: these are output only. `displayFinalStatistics` adds floating-point averages and a display sort.
- The restart loop of `main` is process control. Only the decision of `promptRestart` is modelled.
- How `bufio.Reader` and `fmt.Scan` share standard input is not modelled. Each prompt gets its own input sequence: tokens for `fmt.Scan` and lines for `ReadString`.
- Hint.ProximityHint: the comparison is exact. `float64` rounding at a threshold is not modelled, and neither are ranges too large for a `float64`. A zero range follows IEEE division: +Inf, −Inf or NaN.
- Text.Atoi: the integers are unbounded. `strconv.Atoi`'s out-of-range error for values beyond 64 bits is not modelled.
- Text.ToLower: only ASCII capitals are lowered. Go's Unicode case mapping is not modelled.
- Difficulty.CalculateScore: attempts and elapsed time are natural numbers. The source never passes negative values. The conversion of a duration to seconds is written as integer truncation of nanoseconds, which agrees with Go's `int(d.Seconds())` for durations under 2^24 seconds (about 194 days). From there on, `float64` rounding of `Seconds()` can add a second.
- Menus.PromptRestart, Menus.ValidIntInput: where the source would prompt forever on an input that never decides, the model returns `None`.
- Menus.RegisterFrom, Menus.RegisterPlayers, Menus.GetPlayers: at the end of input, a player whose default name is taken makes the source loop forever. The model returns `None` there.
- Session.RunSession: the outcomes are a finite sequence. When they run out before a correct turn, the source would wait for more input, and the model stops with no winner. An empty roster makes the source loop forever without reading, and the model returns the initial state.
- Persistence.UpdatePersistentData: Go's map iteration order is the `order` parameter, a duplicate-free list of the score keys. The record's duration is a parameter.

=== FILE: difficulty.dfy ===
/** Difficulty levels: the range table (`getMaxRange`), target generation
    (`generateNumber`), the difficulty menu (`selectDifficulty`) and the final
    score (`calculateScore`). Difficulties stay strings, as in the source, so
    that unrecognised names keep their default behaviour. */
module Difficulty {
  import opened Options
  import opened Text

  const EasyMaxRange: int := 50
  const MediumMaxRange: int := 100
  const HardMaxRange: int := 200

  /** `getMaxRange`: the inclusive upper bound of the secret number. Any
      unrecognised difficulty gets the medium range. */
  function MaxRange(difficulty: string): (r: int)
    ensures r == EasyMaxRange <==> difficulty == "easy"
    ensures r == HardMaxRange <==> difficulty == "hard"
    ensures r == MediumMaxRange <==> difficulty != "easy" && difficulty != "hard"
  {
    match difficulty
    case "easy" => EasyMaxRange
    case "medium" => MediumMaxRange
    case "hard" => HardMaxRange
    case _ => MediumMaxRange
  }

  /** `generateNumber`: `draw` is the value `rand.Intn(max)` returned, which Go
      guarantees lies in `[0, max)`. */
  function GenerateNumber(difficulty: string, draw: int): (target: int)
    requires 0 <= draw < MaxRange(difficulty)
    ensures 1 <= target <= MaxRange(difficulty)
  {
    draw + 1
  }

  /** Every number of the range can be drawn, so no target is excluded. */
  lemma GenerateNumberCoversRange(difficulty: string, target: int)
    requires 1 <= target <= MaxRange(difficulty)
    ensures GenerateNumber(difficulty, target - 1) == target
  {
  }

  // ---------------------------------------------------------------------------
  // The difficulty menu
  // ---------------------------------------------------------------------------

  const MaxInvalidAttempts: nat := 5

  /** A difficulty menu answer after trimming and lower-casing: the level it
      picks, or `None` for `help` and for anything unrecognised. */
  function DifficultyChoice(choice: string): (d: Option<string>)
    ensures d.Some? ==> d.value == "easy" || d.value == "medium" || d.value == "hard"
    ensures choice == "help" ==> d.None?
  {
    match choice
    case "easy" => Some("easy")
    case "1" => Some("easy")
    case "e" => Some("easy")
    case "medium" => Some("medium")
    case "2" => Some("medium")
    case "m" => Some("medium")
    case "hard" => Some("hard")
    case "3" => Some("hard")
    case "h" => Some("hard")
    case _ => None
  }

  /** The answers that pick each level, as `selectDifficulty` lists them. */
  lemma DifficultySynonyms(choice: string)
    ensures DifficultyChoice(choice) == Some("easy") <==> choice in {"easy", "1", "e"}
    ensures DifficultyChoice(choice) == Some("medium") <==> choice in {"medium", "2", "m"}
    ensures DifficultyChoice(choice) == Some("hard") <==> choice in {"hard", "3", "h"}
  {
  }

  /** How `selectDifficulty` normalises a scanned token. */
  function NormalizeChoice(token: string): string {
    ToLower(TrimSpace(token))
  }

  /** The loop of `selectDifficulty` with `invalid` invalid answers so far. Once
      the tokens run out, `fmt.Scan` leaves the answer empty, which counts as
      invalid, so the loop always ends. */
  function SelectFrom(tokens: seq<string>, invalid: nat): (d: string)
    requires invalid <= MaxInvalidAttempts
    ensures d == "easy" || d == "medium" || d == "hard"
    decreases |tokens|, MaxInvalidAttempts - invalid
  {
    if invalid >= MaxInvalidAttempts then "medium"
    else
      var choice := if |tokens| == 0 then "" else NormalizeChoice(tokens[0]);
      var rest := if |tokens| == 0 then [] else tokens[1..];
      match DifficultyChoice(choice)
      case Some(level) => level
      case None =>
        if choice == "help" then SelectFrom(rest, invalid)
        else SelectFrom(rest, invalid + 1)
  }

  /** `selectDifficulty` fed with the whitespace-separated tokens typed at it. */
  function SelectDifficulty(tokens: seq<string>): (d: string)
    ensures d == "easy" || d == "medium" || d == "hard"
  {
    SelectFrom(tokens, 0)
  }

  /** The answers that count toward the limit: every normalised token except `help`. */
  function CountedAnswers(tokens: seq<string>): (c: seq<string>)
    ensures |c| <= |tokens|
    ensures forall k :: 0 <= k < |c| ==> c[k] != "help"
  {
    if |tokens| == 0 then []
    else if NormalizeChoice(tokens[0]) == "help" then CountedAnswers(tokens[1..])
    else [NormalizeChoice(tokens[0])] + CountedAnswers(tokens[1..])
  }

  /** A `help` token is skipped without counting. */
  lemma HelpIsFree(tokens: seq<string>, invalid: nat)
    requires invalid <= MaxInvalidAttempts
    ensures SelectFrom(["help"] + tokens, invalid) == SelectFrom(tokens, invalid)
  {
    assert NormalizeChoice("help") == "help" by {
      TrimSpaceOfTrimmed("help");
      ToLowerWithoutCapitals("help");
    }
    assert (["help"] + tokens)[1..] == tokens;
  }

  /** Reference definition of the menu's answer: among the first `budget`
      counted answers, the level named by the first one that names a level;
      "medium" when none does. */
  function FirstLevel(answers: seq<string>, budget: nat): (d: string)
    ensures d == "easy" || d == "medium" || d == "hard"
    decreases budget
  {
    if budget == 0 || |answers| == 0 then "medium"
    else
      match DifficultyChoice(answers[0])
      case Some(level) => level
      case None => FirstLevel(answers[1..], budget - 1)
  }

  lemma {:induction false} NoTokensGiveMedium(invalid: nat)
    requires invalid <= MaxInvalidAttempts
    ensures SelectFrom([], invalid) == "medium"
    decreases MaxInvalidAttempts - invalid
  {
    if invalid < MaxInvalidAttempts {
      assert DifficultyChoice("").None?;
      NoTokensGiveMedium(invalid + 1);
    }
  }

  /** The menu loop picks exactly what the reference picks from the answers
      left once every `help` is dropped, within the remaining invalid budget. */
  lemma {:induction false} SelectFromMatchesFirstLevel(tokens: seq<string>, invalid: nat)
    requires invalid <= MaxInvalidAttempts
    ensures SelectFrom(tokens, invalid) == FirstLevel(CountedAnswers(tokens), MaxInvalidAttempts - invalid)
    decreases |tokens|
  {
    if invalid == MaxInvalidAttempts {
    } else if |tokens| == 0 {
      NoTokensGiveMedium(invalid);
    } else {
      var choice := NormalizeChoice(tokens[0]);
      var rest := tokens[1..];
      if choice == "help" {
        SelectFromMatchesFirstLevel(rest, invalid);
      } else {
        var c := CountedAnswers(tokens);
        assert c[0] == choice && c[1..] == CountedAnswers(rest);
        if DifficultyChoice(choice).None? {
          SelectFromMatchesFirstLevel(rest, invalid + 1);
        }
      }
    }
  }

  /** `selectDifficulty` answers with the first level named among the first
      five answers that are not `help`, and "medium" when there is none. */
  lemma SelectDifficultyMatchesFirstLevel(tokens: seq<string>)
    ensures SelectDifficulty(tokens) == FirstLevel(CountedAnswers(tokens), MaxInvalidAttempts)
  {
    SelectFromMatchesFirstLevel(tokens, 0);
  }

  /** The limit: five answers in a row that are neither a level nor `help`
      give "medium". */
  lemma FiveInvalidGiveMedium(tokens: seq<string>)
    requires |tokens| >= MaxInvalidAttempts
    requires forall k :: 0 <= k < MaxInvalidAttempts ==>
               NormalizeChoice(tokens[k]) != "help" && DifficultyChoice(NormalizeChoice(tokens[k])).None?
    ensures SelectDifficulty(tokens) == "medium"
  {
    var t := tokens;
    assert SelectFrom(t, 0) == SelectFrom(t[1..], 1);
    assert SelectFrom(t[1..], 1) == SelectFrom(t[2..], 2) by { assert t[1..][0] == t[1]; assert t[1..][1..] == t[2..]; }
    assert SelectFrom(t[2..], 2) == SelectFrom(t[3..], 3) by { assert t[2..][0] == t[2]; assert t[2..][1..] == t[3..]; }
    assert SelectFrom(t[3..], 3) == SelectFrom(t[4..], 4) by { assert t[3..][0] == t[3]; assert t[3..][1..] == t[4..]; }
    assert SelectFrom(t[4..], 4) == SelectFrom(t[5..], 5) by { assert t[4..][0] == t[4]; assert t[4..][1..] == t[5..]; }
  }

  /** With no input at all (end of input from the start) the menu gives "medium". */
  lemma NoInputGivesMedium()
    ensures SelectDifficulty([]) == "medium"
  {
    assert DifficultyChoice("").None?;
  }

  // ---------------------------------------------------------------------------
  // Scoring
  // ---------------------------------------------------------------------------

  const BaseScore: int := 1000
  const AttemptPenalty: int := 10
  const SecondsPerPenaltyPoint: int := 5
  const NanosPerSecond: int := 1_000_000_000

  /** The time penalty: one point per full five seconds, after truncating the
      elapsed `time.Duration` (nanoseconds) to whole seconds. */
  function TimePenalty(elapsedNanos: nat): nat {
    (elapsedNanos / NanosPerSecond) / SecondsPerPenaltyPoint
  }

  /** The score before the difficulty multiplier, floored at zero. */
  function RawScore(attempts: nat, elapsedNanos: nat): (raw: int)
    ensures 0 <= raw <= BaseScore
  {
    var raw := BaseScore - AttemptPenalty * attempts - TimePenalty(elapsedNanos);
    if raw < 0 then 0 else raw
  }

  /** The medium multiplier `int(float64(raw) * 1.5)`, in integers. */
  function MediumBonus(raw: int): int {
    (3 * raw) / 2
  }

  /** `calculateScore`: the winner's score for `attempts` guesses in total and
      the time from session start to the winning guess. */
  function CalculateScore(attempts: nat, difficulty: string, elapsedNanos: nat): (score: int)
    ensures 0 <= score <= 2 * BaseScore
    ensures difficulty != "medium" && difficulty != "hard" ==> score <= BaseScore - AttemptPenalty * attempts || score == 0
  {
    var raw := RawScore(attempts, elapsedNanos);
    match difficulty
    case "easy" => raw
    case "medium" => MediumBonus(raw)
    case "hard" => raw * 2
    case _ => raw
  }

  /** Reference: the raw score as `max(0, 1000 - 10*attempts - secs/5)`, and the
      multiplier per difficulty, with medium's float multiplication done in
      exact reals and truncated. */
  lemma ScoreMultiplier(attempts: nat, difficulty: string, elapsedNanos: nat)
    ensures RawScore(attempts, elapsedNanos)
            == Max(0, BaseScore - 10 * attempts - (elapsedNanos / NanosPerSecond) / 5)
    ensures var raw := RawScore(attempts, elapsedNanos);
            && (difficulty == "hard" ==> CalculateScore(attempts, difficulty, elapsedNanos) == 2 * raw)
            && (difficulty == "medium" ==> CalculateScore(attempts, difficulty, elapsedNanos) == ((raw as real) * 1.5).Floor)
            && (difficulty != "medium" && difficulty != "hard" ==> CalculateScore(attempts, difficulty, elapsedNanos) == raw)
  {
    var raw := RawScore(attempts, elapsedNanos);
    MediumBonusIsTruncatedProduct(raw);
  }

  lemma MediumBonusIsTruncatedProduct(raw: nat)
    ensures MediumBonus(raw) == ((raw as real) * 1.5).Floor
  {
    var q := (3 * raw) / 2;
    var r := (3 * raw) % 2;
    assert 3 * raw == 2 * q + r;
    assert (raw as real) * 1.5 == (q as real) + (r as real) / 2.0;
  }

  /** More attempts never raise the score. */
  lemma ScoreNonIncreasingInAttempts(a1: nat, a2: nat, difficulty: string, elapsedNanos: nat)
    requires a1 <= a2
    ensures CalculateScore(a2, difficulty, elapsedNanos) <= CalculateScore(a1, difficulty, elapsedNanos)
  {
  }

  /** More elapsed time never raises the score. */
  lemma ScoreNonIncreasingInTime(attempts: nat, difficulty: string, n1: nat, n2: nat)
    requires n1 <= n2
    ensures CalculateScore(attempts, difficulty, n2) <= CalculateScore(attempts, difficulty, n1)
  {
    assert n1 / NanosPerSecond <= n2 / NanosPerSecond;
    assert TimePenalty(n1) <= TimePenalty(n2);
  }

  /** A first-guess win within five seconds. */
  lemma FirstGuessScores(elapsedNanos: nat)
    requires elapsedNanos < 5 * NanosPerSecond
    ensures CalculateScore(1, "easy", elapsedNanos) == 990
    ensures CalculateScore(1, "medium", elapsedNanos) == 1485
    ensures CalculateScore(1, "hard", elapsedNanos) == 1980
  {
  }
}

=== FILE: hint.dfy ===
/** `getProximityHint`: how far a wrong guess is from the target, as one of four
    fixed phrases chosen by the distance as a percentage of the range. */
module Hint {

  /** The four proximity categories, closest first. */
  datatype Proximity = VeryClose | Close | GettingWarmer | WayOff {

    /** The phrase the game prints for the category. */
    function Text(): string {
      match this
      case VeryClose => "Very close!"
      case Close => "Close!"
      case GettingWarmer => "Getting warmer..."
      case WayOff => "Way off!"
    }

    /** Position in the order closest (0) to farthest (3). */
    function Rank(): nat {
      match this
      case VeryClose => 0
      case Close => 1
      case GettingWarmer => 2
      case WayOff => 3
    }
  }

  /** The three inclusive thresholds, in percent of the range. */
  const VeryClosePercent: int := 5
  const ClosePercent: int := 15
  const WarmerPercent: int := 30

  /** `percentage <= limit` for `percentage = diff / maxRange * 100`, decided
      exactly in integers. A negative range flips the inequality; a zero range
      is division by zero in floating point: a positive distance gives +Inf, a
      negative one -Inf, and zero gives NaN, which no comparison accepts. */
  predicate WithinPercent(diff: int, maxRange: int, limit: int) {
    if maxRange > 0 then 100 * diff <= limit * maxRange
    else if maxRange < 0 then 100 * diff >= limit * maxRange
    else diff < 0
  }

  /** The category `getProximityHint` picks: the thresholds are tried in
      ascending order and the first one met wins. */
  function Category(diff: int, maxRange: int): Proximity {
    if WithinPercent(diff, maxRange, VeryClosePercent) then VeryClose
    else if WithinPercent(diff, maxRange, ClosePercent) then Close
    else if WithinPercent(diff, maxRange, WarmerPercent) then GettingWarmer
    else WayOff
  }

  /** `getProximityHint(diff, maxRange)`: always one of exactly four phrases. */
  function ProximityHint(diff: int, maxRange: int): (h: string)
    ensures h == "Very close!" || h == "Close!" || h == "Getting warmer..." || h == "Way off!"
  {
    Category(diff, maxRange).Text()
  }

  /** Reference definition: the computation as the source writes it, with
      exact real arithmetic in place of float64. */
  ghost function PercentCategory(diff: int, maxRange: int): Proximity
    requires maxRange != 0
  {
    var percentage := (diff as real) / (maxRange as real) * 100.0;
    if percentage <= 5.0 then VeryClose
    else if percentage <= 15.0 then Close
    else if percentage <= 30.0 then GettingWarmer
    else WayOff
  }

  lemma PercentBelow(diff: int, maxRange: int, limit: int)
    requires maxRange != 0
    ensures (diff as real) / (maxRange as real) * 100.0 <= limit as real
            <==> WithinPercent(diff, maxRange, limit)
  {
    var q := (diff as real) / (maxRange as real);
    assert q * (maxRange as real) == diff as real;
    if maxRange > 0 {
      if q * 100.0 <= limit as real {
        assert q * 100.0 * (maxRange as real) <= (limit as real) * (maxRange as real);
      } else {
        assert q * 100.0 * (maxRange as real) > (limit as real) * (maxRange as real);
      }
    } else {
      if q * 100.0 <= limit as real {
        assert q * 100.0 * (maxRange as real) >= (limit as real) * (maxRange as real);
      } else {
        assert q * 100.0 * (maxRange as real) < (limit as real) * (maxRange as real);
      }
    }
  }

  /** The phrase `getProximityHint` returns is the phrase of the category the
      percentage computation picks. */
  lemma ProximityHintMatchesPercentage(diff: int, maxRange: int)
    requires maxRange != 0
    ensures ProximityHint(diff, maxRange) == PercentCategory(diff, maxRange).Text()
  {
    CategoryMatchesPercentage(diff, maxRange);
  }

  /** The integer thresholds agree with the percentage computation for every
      distance and every non-zero range. */
  lemma CategoryMatchesPercentage(diff: int, maxRange: int)
    requires maxRange != 0
    ensures Category(diff, maxRange) == PercentCategory(diff, maxRange)
  {
    PercentBelow(diff, maxRange, VeryClosePercent);
    PercentBelow(diff, maxRange, ClosePercent);
    PercentBelow(diff, maxRange, WarmerPercent);
  }

  /** Every threshold is inclusive, and a distance of zero is "very close". */
  lemma ThresholdsInclusive(diff: int, maxRange: int)
    requires maxRange > 0
    ensures ProximityHint(0, maxRange) == "Very close!"
    ensures 100 * diff == 5 * maxRange ==> ProximityHint(diff, maxRange) == "Very close!"
    ensures 100 * diff == 15 * maxRange ==> ProximityHint(diff, maxRange) == "Close!"
    ensures 100 * diff == 30 * maxRange ==> ProximityHint(diff, maxRange) == "Getting warmer..."
    ensures 100 * diff > 30 * maxRange ==> ProximityHint(diff, maxRange) == "Way off!"
  {
  }

  /** For a fixed range, a larger distance never gives a closer category. */
  lemma CategoryMonotone(d1: int, d2: int, maxRange: int)
    requires maxRange > 0
    requires d1 <= d2
    ensures Category(d1, maxRange).Rank() <= Category(d2, maxRange).Rank()
  {
  }
}

=== FILE: menus.dfy ===
/** The sequential prompts around a session: `promptRestart`,
    `getValidIntInput` and the name loop of `getPlayers`. Each is modelled as a
    function of the input it consumes. A prompt that in the source keeps asking
    forever once its input has ended yields `None`. */
module Menus {
  import opened Options
  import opened Text

  // ---------------------------------------------------------------------------
  // Prompt loops that repeat until an acceptable answer
  // ---------------------------------------------------------------------------

  /** The answer of a prompt loop that reads one token per round and stops at
      the first token `decide` accepts. `None` when no token is accepted: the
      source would then keep prompting, because at end of input `fmt.Scan`
      yields an empty token, which no such prompt accepts. */
  function FirstAnswer<T(==)>(tokens: seq<string>, decide: string -> Option<T>): (r: Option<T>)
    ensures r.None? <==> forall i :: 0 <= i < |tokens| ==> decide(tokens[i]).None?
    ensures r.Some? ==> exists i :: 0 <= i < |tokens| && decide(tokens[i]) == r
                                   && forall j :: 0 <= j < i ==> decide(tokens[j]).None?
    decreases |tokens|
  {
    if |tokens| == 0 then None
    else if decide(tokens[0]).Some? then decide(tokens[0])
    else
      var r := FirstAnswer(tokens[1..], decide);
      assert forall i :: 1 <= i < |tokens| ==> tokens[i] == tokens[1..][i - 1];
      if r.Some? then
        var i :| 0 <= i < |tokens[1..]| && decide(tokens[1..][i]) == r
                 && forall j :: 0 <= j < i ==> decide(tokens[1..][j]).None?;
        assert decide(tokens[i + 1]) == r;
        r
      else r
  }

  /** How `promptRestart` reads one answer: trimmed, lower-cased, then matched
      against its two synonym lists. `help` and anything else decide nothing. */
  function RestartAnswer(token: string): (r: Option<bool>)
    ensures ToLower(TrimSpace(token)) == "help" ==> r.None?
    ensures TrimSpace(token) == "" ==> r.None?
  {
    match ToLower(TrimSpace(token))
    case "yes" => Some(true)
    case "y" => Some(true)
    case "yeah" => Some(true)
    case "yep" => Some(true)
    case "1" => Some(true)
    case "no" => Some(false)
    case "n" => Some(false)
    case "nope" => Some(false)
    case "0" => Some(false)
    case _ => None
  }

  /** `promptRestart`: whether another session is played, decided by the first
      answer that is a yes or a no. */
  function PromptRestart(tokens: seq<string>): (r: Option<bool>)
    ensures r.Some? ==> exists i :: 0 <= i < |tokens| && RestartAnswer(tokens[i]) == r
                                   && forall j :: 0 <= j < i ==> RestartAnswer(tokens[j]).None?
    ensures r.None? ==> forall i :: 0 <= i < |tokens| ==> RestartAnswer(tokens[i]).None?
  {
    FirstAnswer(tokens, RestartAnswer)
  }

  /** The synonyms `promptRestart` accepts, in any case and with padding. */
  lemma RestartSynonyms(token: string)
    ensures ToLower(TrimSpace(token)) in {"yes", "y", "yeah", "yep", "1"} <==> RestartAnswer(token) == Some(true)
    ensures ToLower(TrimSpace(token)) in {"no", "n", "nope", "0"} <==> RestartAnswer(token) == Some(false)
  {
  }

  /** `getValidIntInput`'s rule for one token: accepted exactly when, after
      trimming, it is a decimal integer within `[lo, hi]`. */
  function IntAnswer(token: string, lo: int, hi: int): (r: Option<int>)
    ensures r.Some? <==> Atoi(TrimSpace(token)).Some? && lo <= Atoi(TrimSpace(token)).value <= hi
    ensures r.Some? ==> r == Atoi(TrimSpace(token))
  {
    var input := TrimSpace(token);
    if ToLower(input) == "help" then
      assert !IsDigit(input[0]) && input[0] != '+' && input[0] != '-';
      None
    else
      match Atoi(input)
      case None => None
      case Some(value) => if value < lo || value > hi then None else Some(value)
  }

  /** `getValidIntInput(prompt, lo, hi)`: the first acceptable number typed. */
  function ValidIntInput(tokens: seq<string>, lo: int, hi: int): (r: Option<int>)
    ensures r.Some? ==> lo <= r.value <= hi
    ensures r.Some? ==> exists i :: 0 <= i < |tokens| && Atoi(TrimSpace(tokens[i])) == r
                                   && forall j :: 0 <= j < i ==> IntAnswer(tokens[j], lo, hi).None?
    ensures r.None? ==> forall i :: 0 <= i < |tokens| ==> IntAnswer(tokens[i], lo, hi).None?
  {
    FirstAnswer(tokens, t => IntAnswer(t, lo, hi))
  }

  // ---------------------------------------------------------------------------
  // Player registration
  // ---------------------------------------------------------------------------

  const MaxPlayers: int := 10

  /** One `ReadString('\n')` of a player name: the line, or a read error
      (end of input included). */
  datatype NameRead = NameLine(text: string) | NameError

  /** `fmt.Sprintf("Player%d", i)`. */
  function DefaultName(i: int): string {
    "Player" + Itoa(i)
  }

  /** The name a read proposes for player `i`: the trimmed line, or the
      default name when the line is blank or the read failed. */
  function ProposedName(read: NameRead, i: int): (name: string)
    ensures name != ""
    ensures read.NameError? || TrimSpace(read.text) == "" ==> name == DefaultName(i)
    ensures read.NameLine? && TrimSpace(read.text) != "" ==> name == TrimSpace(read.text)
  {
    match read
    case NameError => DefaultName(i)
    case NameLine(text) =>
      var name := TrimSpace(text);
      if name == "" then DefaultName(i) else name
  }

  predicate NoDuplicates(names: seq<string>) {
    forall a, b :: 0 <= a < b < |names| ==> names[a] != names[b]
  }

  /** The non-blank names typed in a sequence of lines. */
  function TypedNames(lines: seq<NameRead>): set<string> {
    set m | 0 <= m < |lines| && lines[m].NameLine? && TrimSpace(lines[m].text) != "" :: TrimSpace(lines[m].text)
  }

  /** The read the loop sees next: after the end of input every read fails. */
  function NextRead(lines: seq<NameRead>): NameRead {
    if |lines| == 0 then NameError else lines[0]
  }

  function RestAfterRead(lines: seq<NameRead>): seq<NameRead> {
    if |lines| == 0 then [] else lines[1..]
  }

  /** One read proposes either the default name or one of the typed names,
      and consuming it can only shrink the typed names. */
  lemma ReadStep(lines: seq<NameRead>, i: int)
    ensures ProposedName(NextRead(lines), i) == DefaultName(i)
            || ProposedName(NextRead(lines), i) in TypedNames(lines)
    ensures TypedNames(RestAfterRead(lines)) <= TypedNames(lines)
  {
    if |lines| > 0 {
      var rest := lines[1..];
      forall x | x in TypedNames(rest) ensures x in TypedNames(lines) {
        var m :| 0 <= m < |rest| && rest[m].NameLine? && TrimSpace(rest[m].text) != "" && TrimSpace(rest[m].text) == x;
        assert lines[m + 1] == rest[m];
      }
    }
  }

  lemma AppendFresh(players: seq<string>, name: string)
    requires NoDuplicates(players)
    requires name !in players
    ensures NoDuplicates(players + [name])
  {
  }

  /** The registration loop from player `i` on, with `players` registered so
      far. A read after the end of input fails, so it proposes the default
      name; if that name is taken too, the source asks again forever, which
      is `None` here. */
  function RegisterFrom(i: nat, n: nat, lines: seq<NameRead>, players: seq<string>): (r: Option<seq<string>>)
    requires 1 <= i <= n + 1 && |players| == i - 1
    requires NoDuplicates(players)
    ensures r.Some? ==> |r.value| == n && NoDuplicates(r.value) && players <= r.value
    ensures r.Some? ==> forall k :: i - 1 <= k < n ==>
                          r.value[k] == DefaultName(k + 1) || r.value[k] in TypedNames(lines)
    decreases n + 1 - i, |lines|
  {
    if i > n then Some(players)
    else
      var name := ProposedName(NextRead(lines), i);
      ReadStep(lines, i);
      if !Contains(players, name) then
        AppendFresh(players, name);
        var r := RegisterFrom(i + 1, n, RestAfterRead(lines), players + [name]);
        assert r.Some? ==> r.value[i - 1] == (players + [name])[i - 1];
        r
      else if |lines| == 0 then None
      else RegisterFrom(i, n, RestAfterRead(lines), players)
  }

  /** The name loop of `getPlayers` for `n` players. */
  function RegisterPlayers(n: nat, lines: seq<NameRead>): (r: Option<seq<string>>)
    ensures r.Some? ==> |r.value| == n && NoDuplicates(r.value)
    ensures r.Some? ==> forall k :: 0 <= k < n ==> r.value[k] != ""
    ensures r.Some? ==> forall k :: 0 <= k < n ==>
                          r.value[k] == DefaultName(k + 1) || r.value[k] in TypedNames(lines)
  {
    RegisterFrom(1, n, lines, [])
  }

  /** `getPlayers`: the player count from `getValidIntInput(…, 1, MaxPlayers)`,
      then that many distinct names. */
  function GetPlayers(countTokens: seq<string>, lines: seq<NameRead>): (r: Option<seq<string>>)
    ensures r.Some? ==> 1 <= |r.value| <= MaxPlayers && NoDuplicates(r.value)
    ensures r.Some? ==> ValidIntInput(countTokens, 1, MaxPlayers) == Some(|r.value|)
    ensures ValidIntInput(countTokens, 1, MaxPlayers).None? ==> r.None?
  {
    match ValidIntInput(countTokens, 1, MaxPlayers)
    case None => None
    case Some(n) => RegisterPlayers(n, lines)
  }

  /** Player `i` is registered under the first proposal that is not taken:
      the `m` lines before it propose taken names and are consumed, and the
      loop continues with player `i + 1` after the line that was accepted.
      When every remaining line proposes a taken name (`m == |lines|`), the
      proposal is the default name of the read that fails at the end of input. */
  lemma {:induction false} FirstFreshProposal(i: nat, n: nat, lines: seq<NameRead>, players: seq<string>, m: nat)
    requires 1 <= i <= n && |players| == i - 1 && NoDuplicates(players)
    requires m <= |lines|
    requires forall j :: 0 <= j < m ==> ProposedName(lines[j], i) in players
    requires ProposedName(NextRead(lines[m..]), i) !in players
    ensures var name := ProposedName(NextRead(lines[m..]), i);
            && NoDuplicates(players + [name])
            && RegisterFrom(i, n, lines, players) == RegisterFrom(i + 1, n, RestAfterRead(lines[m..]), players + [name])
    ensures var r := RegisterFrom(i, n, lines, players);
            r.Some? ==> r.value[i - 1] == ProposedName(NextRead(lines[m..]), i)
    decreases m
  {
    var name := ProposedName(NextRead(lines[m..]), i);
    AppendFresh(players, name);
    if m == 0 {
      assert lines[0..] == lines;
    } else {
      var rest := lines[1..];
      assert rest[m - 1..] == lines[m..];
      assert forall j :: 0 <= j < m - 1 ==> ProposedName(rest[j], i) in players by {
        forall j | 0 <= j < m - 1 ensures ProposedName(rest[j], i) in players {
          assert rest[j] == lines[j + 1];
        }
      }
      assert RegisterFrom(i, n, lines, players) == RegisterFrom(i, n, rest, players);
      FirstFreshProposal(i, n, rest, players, m - 1);
    }
    var r := RegisterFrom(i, n, lines, players);
    assert r.Some? ==> r.value[i - 1] == (players + [name])[i - 1];
  }

  /** A typed name nobody has taken is registered for the player asked. */
  lemma FreshTypedNameIsRegistered(i: nat, n: nat, lines: seq<NameRead>, players: seq<string>)
    requires 1 <= i <= n && |players| == i - 1 && NoDuplicates(players)
    requires |lines| > 0 && lines[0].NameLine? && TrimSpace(lines[0].text) != ""
    requires TrimSpace(lines[0].text) !in players
    ensures var r := RegisterFrom(i, n, lines, players);
            r.Some? ==> r.value[i - 1] == TrimSpace(lines[0].text)
  {
    FirstFreshProposal(i, n, lines, players, 0);
  }

  /** A roster always results unless a default name the loop may still fall
      back on is already registered or typed: without such a clash, every
      player ends up with a fresh name before the input runs out. */
  lemma {:induction false} RosterExists(i: nat, n: nat, lines: seq<NameRead>, players: seq<string>)
    requires 1 <= i <= n + 1 && |players| == i - 1 && NoDuplicates(players)
    requires forall k :: i <= k <= n ==> DefaultName(k) !in players && DefaultName(k) !in TypedNames(lines)
    ensures RegisterFrom(i, n, lines, players).Some?
    decreases n + 1 - i, |lines|
  {
    if i <= n {
      var name := ProposedName(NextRead(lines), i);
      var rest := RestAfterRead(lines);
      ReadStep(lines, i);
      if !Contains(players, name) {
        AppendFresh(players, name);
        forall k | i + 1 <= k <= n
          ensures DefaultName(k) !in players + [name] && DefaultName(k) !in TypedNames(rest)
        {
          if DefaultName(k) == name && name == DefaultName(i) {
            DefaultNameInjective(k, i);
          }
        }
        RosterExists(i + 1, n, rest, players + [name]);
      } else {
        assert name != DefaultName(i);
        assert |lines| > 0;
        RosterExists(i, n, rest, players);
      }
    }
  }

  /** `getPlayers` reads a count and always registers that many players when
      no typed name collides with a default name `Player<k>` of the roster. */
  lemma PlayersForEveryCount(countTokens: seq<string>, lines: seq<NameRead>, n: nat)
    requires ValidIntInput(countTokens, 1, MaxPlayers) == Some(n)
    requires forall k :: 1 <= k <= n ==> DefaultName(k) !in TypedNames(lines)
    ensures GetPlayers(countTokens, lines).Some?
    ensures |GetPlayers(countTokens, lines).value| == n
  {
    RosterExists(1, n, lines, []);
  }

  /** Default names of different players differ. */
  lemma DefaultNameInjective(a: int, b: int)
    requires DefaultName(a) == DefaultName(b)
    ensures a == b
  {
    assert DefaultName(a)[6..] == Itoa(a);
    assert DefaultName(b)[6..] == Itoa(b);
    ItoaInjective(a, b);
  }

  /** `Player1`, …, `Player<n>`. */
  function DefaultRoster(n: nat): (names: seq<string>)
    ensures |names| == n
    ensures forall k :: 0 <= k < n ==> names[k] == DefaultName(k + 1)
  {
    seq(n, k requires 0 <= k < n => DefaultName(k + 1))
  }

  /** A read that leaves the default name in place. */
  predicate BlankRead(read: NameRead) {
    read.NameError? || TrimSpace(read.text) == ""
  }

  lemma DefaultRosterDistinct(n: nat)
    ensures NoDuplicates(DefaultRoster(n))
  {
    var names := DefaultRoster(n);
    forall a, b | 0 <= a < b < n ensures names[a] != names[b] {
      if names[a] == names[b] { DefaultNameInjective(a + 1, b + 1); }
    }
  }

  lemma DefaultNameIsNew(i: nat)
    requires i >= 1
    ensures !Contains(DefaultRoster(i - 1), DefaultName(i))
  {
    var done := DefaultRoster(i - 1);
    if DefaultName(i) in done {
      var k :| 0 <= k < |done| && done[k] == DefaultName(i);
      DefaultNameInjective(k + 1, i);
    }
  }

  lemma {:induction false} BlankReadsFrom(i: nat, n: nat, lines: seq<NameRead>)
    requires 1 <= i <= n + 1
    requires forall m :: 0 <= m < |lines| ==> BlankRead(lines[m])
    ensures NoDuplicates(DefaultRoster(i - 1))
    ensures RegisterFrom(i, n, lines, DefaultRoster(i - 1)) == Some(DefaultRoster(n))
    decreases n + 1 - i
  {
    DefaultRosterDistinct(i - 1);
    if i > n {
      assert DefaultRoster(i - 1) == DefaultRoster(n);
    } else {
      var rest := RestAfterRead(lines);
      assert ProposedName(NextRead(lines), i) == DefaultName(i);
      DefaultNameIsNew(i);
      assert DefaultRoster(i - 1) + [DefaultName(i)] == DefaultRoster(i);
      assert forall m :: 0 <= m < |rest| ==> BlankRead(rest[m]) by {
        forall m | 0 <= m < |rest| ensures BlankRead(rest[m]) {
          assert rest[m] == lines[m + 1];
        }
      }
      BlankReadsFrom(i + 1, n, rest);
    }
  }

  /** Blank lines, failed reads and an early end of input register the
      players as `Player1` … `Player<n>`. */
  lemma BlankInputGivesDefaultNames(n: nat, lines: seq<NameRead>)
    requires forall m :: 0 <= m < |lines| ==> BlankRead(lines[m])
    ensures RegisterPlayers(n, lines) == Some(DefaultRoster(n))
  {
    BlankReadsFrom(1, n, lines);
  }

  /** A name already taken is asked for again: the line proposing it is
      consumed and player `i` is prompted for the next one. */
  lemma DuplicateIsRejected(i: nat, n: nat, lines: seq<NameRead>, players: seq<string>)
    requires 1 <= i <= n && |players| == i - 1 && NoDuplicates(players)
    requires |lines| > 0 && ProposedName(lines[0], i) in players
    ensures RegisterFrom(i, n, lines, players) == RegisterFrom(i, n, lines[1..], players)
  {
  }

  /** At the end of input, a default name that is already taken can never be
      replaced: the source keeps asking forever. */
  lemma TakenDefaultAtEndOfInput(i: nat, n: nat, players: seq<string>)
    requires 1 <= i <= n && |players| == i - 1 && NoDuplicates(players)
    requires DefaultName(i) in players
    ensures RegisterFrom(i, n, [], players) == None
  {
  }
}

=== FILE: options.dfy ===
/** The optional result shared by the game's input loops. */
module Options {

  /** `Some(value)` when a loop produced an answer; `None` for a number that
      does not parse, or for a prompt that would keep asking forever once its
      input has run out. */
  datatype Option<+T> = None | Some(value: T)
}

=== FILE: persistence.dfy ===
/** `updatePersistentData`: after each session the session's scores are added
    into the all-time leaderboard, and a history record naming the session's
    best scorer is appended when anyone scored. Go visits a map in an
    unspecified order; the model takes that order as a parameter (`order`,
    which lists every key of the scores once). */
module Persistence {
  import opened Menus
  import opened Difficulty
  import opened Session
  import Turn

  /** `GameSession`: one completed game in the history. The completion time
      stamp is not modelled; the duration is given in nanoseconds. */
  datatype GameRecord = GameRecord(difficulty: string, winner: string, attempts: int,
                                   durationNanos: nat, playerCount: nat, finalScore: int)

  /** The data that survives from one session to the next. */
  datatype Persistent = Persistent(leaderboard: map<string, int>, history: seq<GameRecord>)

  /** `order` is an iteration order of `scores`: each key exactly once. */
  ghost predicate Enumerates(order: seq<string>, scores: map<string, int>) {
    NoDuplicates(order) && (forall p :: p in order <==> p in scores)
  }

  /** A Go map read: a missing key reads as zero. */
  function Lookup(m: map<string, int>, key: string): int {
    if key in m then m[key] else 0
  }

  /** `leaderboard[player] += score` for the players of `order`, in order. */
  function AddScores(leaderboard: map<string, int>, scores: map<string, int>, order: seq<string>): (r: map<string, int>)
    requires NoDuplicates(order) && (forall p :: p in order ==> p in scores)
    ensures forall p :: p in r <==> p in leaderboard || p in order
    ensures forall p :: p in order ==> r[p] == Lookup(leaderboard, p) + scores[p]
    ensures forall p :: p in leaderboard && p !in order ==> r[p] == leaderboard[p]
  {
    if order == [] then leaderboard
    else
      var player := order[0];
      var rest := AddScores(leaderboard, scores, order[1..]);
      assert player !in order[1..] by {
        forall i | 0 <= i < |order[1..]| ensures order[1..][i] != player {
          assert order[1..][i] == order[i + 1];
        }
      }
      rest[player := Lookup(rest, player) + scores[player]]
  }

  /** The first half of the winner search: the running best score and its
      holder, replaced only by a strictly higher score. */
  function BestFrom(scores: map<string, int>, order: seq<string>, winner: string, best: int): (r: (string, int))
    requires forall p :: p in order ==> p in scores
    ensures r.1 >= best
    ensures forall p :: p in order ==> scores[p] <= r.1
    ensures r.1 == best ==> r.0 == winner
    ensures r.1 > best ==> r.0 in order && scores[r.0] == r.1
    decreases |order|
  {
    if order == [] then (winner, best)
    else if scores[order[0]] > best then BestFrom(scores, order[1..], order[0], scores[order[0]])
    else BestFrom(scores, order[1..], winner, best)
  }

  /** The winner search of `updatePersistentData`: start from `""` and -1. */
  function FindWinner(scores: map<string, int>, order: seq<string>): (r: (string, int))
    requires Enumerates(order, scores)
    ensures forall p :: p in scores ==> scores[p] <= r.1
    ensures r.1 >= -1
    ensures r.1 > -1 ==> r.0 in scores && scores[r.0] == r.1
    ensures r.1 == -1 ==> r.0 == ""
  {
    BestFrom(scores, order, "", -1)
  }

  /** Ties go to the holder met first: the winner is the first key, in the
      iteration order, whose score is the maximum. */
  lemma {:induction false} BestFromIsFirstMaximum(scores: map<string, int>, order: seq<string>, winner: string, best: int)
    requires forall p :: p in order ==> p in scores
    ensures var r := BestFrom(scores, order, winner, best);
            r.1 > best ==> FirstWith(scores, order, r.0, r.1)
    decreases |order|
  {
    if order != [] {
      var r := BestFrom(scores, order, winner, best);
      var top := scores[order[0]];
      if top > best {
        BestFromIsFirstMaximum(scores, order[1..], order[0], top);
        if r.1 > top {
          FirstWithShift(scores, order, r.0, r.1);
        } else {
          assert order[0] == r.0;
        }
      } else {
        BestFromIsFirstMaximum(scores, order[1..], winner, best);
        if r.1 > best {
          FirstWithShift(scores, order, r.0, r.1);
        }
      }
    }
  }

  /** `name` sits in `order` at a position before which every score is
      below `score`. */
  ghost predicate FirstWith(scores: map<string, int>, order: seq<string>, name: string, score: int)
    requires forall p :: p in order ==> p in scores
  {
    exists i :: 0 <= i < |order| && order[i] == name && (forall j :: 0 <= j < i ==> scores[order[j]] < score)
  }

  lemma FirstWithShift(scores: map<string, int>, order: seq<string>, name: string, score: int)
    requires forall p :: p in order ==> p in scores
    requires |order| > 0 && scores[order[0]] < score
    requires FirstWith(scores, order[1..], name, score)
    ensures FirstWith(scores, order, name, score)
  {
    var tail := order[1..];
    var i :| 0 <= i < |tail| && tail[i] == name && (forall j :: 0 <= j < i ==> scores[tail[j]] < score);
    assert order[i + 1] == name;
    forall j | 0 <= j < i + 1
      ensures scores[order[j]] < score
    {
      if j > 0 { assert order[j] == tail[j - 1]; }
    }
  }

  /** Reference definition of the new leaderboard: every player of either map,
      holding the old total (zero when absent) plus the session score (zero
      when absent). */
  ghost function Accumulated(leaderboard: map<string, int>, scores: map<string, int>): map<string, int> {
    map p | p in leaderboard.Keys + scores.Keys :: Lookup(leaderboard, p) + Lookup(scores, p)
  }

  /** Adding the scores in any iteration order gives the reference leaderboard. */
  lemma AddScoresIsAccumulated(leaderboard: map<string, int>, scores: map<string, int>, order: seq<string>)
    requires Enumerates(order, scores)
    ensures AddScores(leaderboard, scores, order) == Accumulated(leaderboard, scores)
  {
    var r := AddScores(leaderboard, scores, order);
    var expected := Accumulated(leaderboard, scores);
    forall p | p in r
      ensures p in expected && r[p] == expected[p]
    {
      AccumulatedAt(leaderboard, scores, p);
      if p in scores {
        assert p in order;
      }
    }
    forall p | p in expected
      ensures p in r
    {
      AccumulatedAt(leaderboard, scores, p);
    }
    assert r.Keys == expected.Keys;
  }

  lemma AccumulatedAt(leaderboard: map<string, int>, scores: map<string, int>, p: string)
    ensures p in Accumulated(leaderboard, scores) <==> p in leaderboard || p in scores
    ensures p in Accumulated(leaderboard, scores) ==>
              Accumulated(leaderboard, scores)[p] == Lookup(leaderboard, p) + Lookup(scores, p)
  {
  }

  /** The leaderboard update does not depend on the order the map is visited in. */
  lemma AddScoresOrderIndependent(leaderboard: map<string, int>, scores: map<string, int>, o1: seq<string>, o2: seq<string>)
    requires Enumerates(o1, scores) && Enumerates(o2, scores)
    ensures AddScores(leaderboard, scores, o1) == AddScores(leaderboard, scores, o2)
  {
    AddScoresIsAccumulated(leaderboard, scores, o1);
    AddScoresIsAccumulated(leaderboard, scores, o2);
  }

  /** `updatePersistentData` for a session that ended with `scores` after
      `attempts` attempts with `playerCount` players and lasted `durationNanos`:
      the leaderboard gains the scores, and exactly one record is appended
      when anyone scored, naming a best scorer. */
  function UpdatePersistentData(data: Persistent, difficulty: string, playerCount: nat, attempts: int,
                                durationNanos: nat, scores: map<string, int>, order: seq<string>): (r: Persistent)
    requires Enumerates(order, scores)
    ensures r.leaderboard == Accumulated(data.leaderboard, scores)
    ensures |scores| == 0 ==> r.history == data.history
    ensures |scores| > 0 ==> |r.history| == |data.history| + 1 && r.history[..|data.history|] == data.history
    ensures |scores| > 0 ==> var record := r.history[|data.history|];
                             && record.difficulty == difficulty && record.attempts == attempts
                             && record.durationNanos == durationNanos && record.playerCount == playerCount
                             && (forall p :: p in scores ==> scores[p] <= record.finalScore)
                             && (record.finalScore > -1 ==> record.winner in scores && scores[record.winner] == record.finalScore)
  {
    AddScoresIsAccumulated(data.leaderboard, scores, order);
    var leaderboard := AddScores(data.leaderboard, scores, order);
    if |scores| == 0 then Persistent(leaderboard, data.history)
    else
      var best := FindWinner(scores, order);
      var record := GameRecord(difficulty, best.0, attempts, durationNanos, playerCount, best.1);
      Persistent(leaderboard, data.history + [record])
  }

  /** A session that nobody scored in changes nothing. */
  lemma NoScoresNoChange(data: Persistent, difficulty: string, playerCount: nat, attempts: int, durationNanos: nat)
    ensures UpdatePersistentData(data, difficulty, playerCount, attempts, durationNanos, map[], []) == data
  {
    var expected := Accumulated(data.leaderboard, map[]);
    assert expected.Keys == data.leaderboard.Keys;
  }

  /** The winner search over a single score finds it. */
  lemma WinnerOfOne(w: string, score: int)
    requires score >= 0
    ensures FindWinner(map[w := score], [w]) == (w, score)
  {
    assert Enumerates([w], map[w := score]);
  }

  /** Adding a single score changes one leaderboard entry. */
  lemma AddOne(leaderboard: map<string, int>, w: string, score: int)
    ensures AddScores(leaderboard, map[w := score], [w]) == leaderboard[w := Lookup(leaderboard, w) + score]
  {
    assert AddScores(leaderboard, map[w := score], []) == leaderboard;
  }

  /** A session whose only score is `score` for `w` records `w` as the
      winner with that score and adds it to `w`'s leaderboard entry. */
  lemma RecordOfOne(data: Persistent, difficulty: string, playerCount: nat, attempts: int,
                    durationNanos: nat, w: string, score: int)
    requires score >= 0
    ensures UpdatePersistentData(data, difficulty, playerCount, attempts, durationNanos, map[w := score], [w])
            == Persistent(data.leaderboard[w := Lookup(data.leaderboard, w) + score],
                          data.history + [GameRecord(difficulty, w, attempts, durationNanos, playerCount, score)])
  {
    assert |map[w := score]| == 1 by { assert map[w := score].Keys == {w}; }
    WinnerOfOne(w, score);
    AddOne(data.leaderboard, w, score);
  }

  /** The full path of a won session: the session's winner `w` is the
      recorded winner, the winning score is the recorded final score and is
      added to `w`'s leaderboard entry, and the recorded attempts are the
      session's. */
  lemma WonSessionIsRecorded(data: Persistent, players: seq<string>, results: seq<Turn.TurnResult>,
                             difficulty: string, elapsedNanos: nat, durationNanos: nat, w: string, score: int)
    requires RunSession(players, results, difficulty, elapsedNanos).won
    requires var s := RunSession(players, results, difficulty, elapsedNanos);
             w == s.log[|s.log| - 1].player && score == CalculateScore(s.attempts, difficulty, elapsedNanos)
    ensures var s := RunSession(players, results, difficulty, elapsedNanos);
            UpdatePersistentData(data, difficulty, |players|, s.attempts, durationNanos, s.scores, [w])
            == Persistent(data.leaderboard[w := Lookup(data.leaderboard, w) + score],
                          data.history + [GameRecord(difficulty, w, s.attempts, durationNanos, |players|, score)])
  {
    var s := RunSession(players, results, difficulty, elapsedNanos);
    assert s.scores == map[w := score];
    RecordOfOne(data, difficulty, |players|, s.attempts, durationNanos, w, score);
  }
}

=== FILE: session.dfy ===
/** The turn loop of `runGameSession`: rounds over the roster, one turn per
    player, until the first correct guess. Each turn's outcome is given in
    advance (`results[k]` is the outcome of the k-th turn of the session), so
    the loop is a function of the roster and the outcomes. */
module Session {
  import opened Text
  import opened Difficulty
  import opened Turn

  /** One processed turn: who played it and what it gave. */
  datatype Play = Play(player: string, result: TurnResult)

  /** The loop's state: the `Attempts` counter, the `Scores` map, the
      `gameWon` flag, and the turns processed so far. */
  datatype SessionState = SessionState(attempts: nat, scores: map<string, int>, won: bool, log: seq<Play>)

  /** The state at the start of the loop. */
  const Initial := SessionState(0, map[], false, [])

  /** The loop state is consistent with the roster and the outcomes: one
      attempt per processed turn, each turn taken in roster order, and no
      correct turn yet. */
  ghost predicate Playing(players: seq<string>, results: seq<TurnResult>, s: SessionState) {
    && |players| > 0
    && !s.won && s.scores == map[]
    && s.attempts == |s.log| <= |results|
    && (forall k :: 0 <= k < |s.log| ==> s.log[k] == Play(players[k % |players|], results[k]))
    && (forall k :: 0 <= k < |s.log| ==> !results[k].correct)
  }

  /** Quotient and remainder are unique. */
  lemma DivModUnique(k: int, q: int, r: int, p: int)
    requires p > 0 && 0 <= r < p && k == q * p + r
    ensures k % p == r
  {
    var q0 := k / p;
    var r0 := k % p;
    assert k == q0 * p + r0;
    assert (q - q0) * p == r0 - r;
    if q > q0 {
      MulAtLeast(q - q0, p);
      assert false;
    } else if q < q0 {
      assert (q0 - q) * p == r - r0;
      MulAtLeast(q0 - q, p);
      assert false;
    }
  }

  lemma MulAtLeast(a: int, p: int)
    requires a >= 1 && p > 0
    ensures a * p >= p
  {
    assert a * p == (a - 1) * p + p;
    assert (a - 1) * p >= 0;
  }

  lemma ModOfOffset(k: nat, j: nat, p: nat)
    requires 0 <= j < p && k >= j && (k - j) % p == 0
    ensures k % p == j
  {
    var q := (k - j) / p;
    assert k - j == q * p + (k - j) % p;
    DivModUnique(k, q, j, p);
  }

  lemma ModAfterRound(k: nat, p: nat)
    requires 0 < p <= k && (k - p) % p == 0
    ensures k % p == 0
  {
    var q := (k - p) / p;
    assert k - p == q * p + (k - p) % p;
    assert k == (q + 1) * p;
    DivModUnique(k, q + 1, 0, p);
  }

  /** What every prefix of the loop guarantees: one attempt per processed
      turn, turns taken in roster order, no correct turn before the last one,
      and the `Scores` map holding exactly the winner's score once won. */
  ghost predicate Settled(players: seq<string>, results: seq<TurnResult>, difficulty: string,
                          elapsedNanos: nat, s: SessionState) {
    && |players| > 0
    && s.attempts == |s.log| <= |results|
    && (forall k :: 0 <= k < |s.log| ==> s.log[k] == Play(players[k % |players|], results[k]))
    && (forall k :: 0 <= k < |s.log| - 1 ==> !results[k].correct)
    && (s.won ==> |s.log| > 0 && results[|s.log| - 1].correct
                  && s.scores == map[s.log[|s.log| - 1].player := CalculateScore(s.attempts, difficulty, elapsedNanos)])
    && (!s.won ==> s.scores == map[] && forall k :: 0 <= k < |s.log| ==> !results[k].correct)
  }

  /** One pass of the inner `for _, player := range Players` loop, from
      roster position `j`, stopping at a correct guess. A turn's attempt is
      counted before its outcome is examined. */
  function PlayRound(players: seq<string>, results: seq<TurnResult>, difficulty: string,
                     elapsedNanos: nat, j: nat, s: SessionState): (s': SessionState)
    requires j <= |players| && Playing(players, results, s)
    requires s.attempts >= j && (s.attempts - j) % |players| == 0
    ensures s.log <= s'.log && Settled(players, results, difficulty, elapsedNanos, s')
    ensures !s'.won && s'.attempts < |results| ==> s'.attempts == s.attempts + |players| - j
    ensures j < |players| && s.attempts < |results| ==> s'.attempts > s.attempts
    decreases |players| - j
  {
    if j == |players| || s.attempts == |results| then s
    else
      ModOfOffset(s.attempts, j, |players|);
      var player := players[j];
      var result := results[s.attempts];
      var attempts := s.attempts + 1;
      var log := s.log + [Play(player, result)];
      assert log[s.attempts] == Play(players[s.attempts % |players|], results[s.attempts]);
      if result.correct then
        SessionState(attempts, s.scores[player := CalculateScore(attempts, difficulty, elapsedNanos)], true, log)
      else
        PlayRound(players, results, difficulty, elapsedNanos, j + 1, SessionState(attempts, s.scores, false, log))
  }

  /** The outer `for !gameWon` loop: whole rounds until a correct guess. It
      also stops when the outcomes run out, where the source would wait for
      further input. */
  function PlayRounds(players: seq<string>, results: seq<TurnResult>, difficulty: string,
                      elapsedNanos: nat, s: SessionState): (s': SessionState)
    requires Playing(players, results, s) && s.attempts % |players| == 0
    ensures s.log <= s'.log && Settled(players, results, difficulty, elapsedNanos, s')
    ensures !s'.won ==> s'.attempts == |results|
    decreases |results| - s.attempts
  {
    if s.attempts == |results| then s
    else
      var s' := PlayRound(players, results, difficulty, elapsedNanos, 0, s);
      if s'.won || s'.attempts == |results| then s'
      else
        ModAfterRound(s'.attempts, |players|);
        PlayRounds(players, results, difficulty, elapsedNanos, s')
  }

  /** The turn loop of `runGameSession` for a roster and the outcomes of its
      turns; `elapsedNanos` is the session time at the winning guess. An empty
      roster makes the source spin without ever reading; the model stops
      with nothing played. */
  function RunSession(players: seq<string>, results: seq<TurnResult>, difficulty: string,
                      elapsedNanos: nat): (s: SessionState)
    ensures s.attempts == |s.log| <= |results|
    ensures |players| == 0 ==> s == Initial
    ensures |players| > 0 ==> forall k :: 0 <= k < |s.log| ==> s.log[k] == Play(players[k % |players|], results[k])
    ensures forall k :: 0 <= k < |s.log| - 1 ==> !results[k].correct
    ensures s.won ==> |s.log| > 0 && results[|s.log| - 1].correct
    ensures s.won ==> s.scores == map[s.log[|s.log| - 1].player := CalculateScore(s.attempts, difficulty, elapsedNanos)]
    ensures !s.won ==> s.scores == map[] && (|players| > 0 ==> s.attempts == |results|)
    ensures !s.won ==> forall k :: 0 <= k < |s.log| ==> !results[k].correct
  {
    if |players| == 0 then Initial
    else PlayRounds(players, results, difficulty, elapsedNanos, Initial)
  }

  /** The session is won exactly when some turn is correct, and then it ends
      at the first correct turn: the attempt count is that turn's position
      plus one, and the winner is the player whose turn it was. */
  lemma {:induction false} SessionEndsAtFirstCorrect(players: seq<string>, results: seq<TurnResult>,
                                                     difficulty: string, elapsedNanos: nat, k: nat)
    requires |players| > 0
    requires k < |results| && results[k].correct
    requires forall j :: 0 <= j < k ==> !results[j].correct
    ensures var s := RunSession(players, results, difficulty, elapsedNanos);
            && s.won && s.attempts == k + 1
            && s.scores == map[players[k % |players|] := CalculateScore(k + 1, difficulty, elapsedNanos)]
  {
    var s := RunSession(players, results, difficulty, elapsedNanos);
    if !s.won {
      assert false;
    }
    assert |s.log| - 1 == k by {
      if |s.log| - 1 < k {
        assert false;
      }
    }
  }

  /** Without a correct turn the session is not won and every outcome is used. */
  lemma NoCorrectTurnNoWinner(players: seq<string>, results: seq<TurnResult>, difficulty: string, elapsedNanos: nat)
    requires |players| > 0
    requires forall j :: 0 <= j < |results| ==> !results[j].correct
    ensures var s := RunSession(players, results, difficulty, elapsedNanos);
            !s.won && s.attempts == |results| && s.scores == map[]
  {
  }

  // ---------------------------------------------------------------------------
  // Sessions driven by the raw turn inputs
  // ---------------------------------------------------------------------------

  /** The outcomes of a sequence of turn inputs against one target. */
  function Outcomes(inputs: seq<TurnInput>, target: int, maxRange: int): (results: seq<TurnResult>)
    ensures |results| == |inputs|
    ensures forall k :: 0 <= k < |inputs| ==> results[k] == ClassifyTurn(inputs[k], target, maxRange)
  {
    seq(|inputs|, k requires 0 <= k < |inputs| => ClassifyTurn(inputs[k], target, maxRange))
  }

  /** A session in which the first turn times out and the second turn's read
      delivers the target: two attempts, and the second player wins. */
  lemma TimeoutThenWin(a: string, b: string, target: int, maxRange: int, difficulty: string, elapsedNanos: nat)
    ensures var s := RunSession([a, b], Outcomes([Timeout, Line(Itoa(target) + "\n")], target, maxRange), difficulty, elapsedNanos);
            s.won && s.attempts == 2 && s.scores == map[b := CalculateScore(2, difficulty, elapsedNanos)]
  {
    var results := Outcomes([Timeout, Line(Itoa(target) + "\n")], target, maxRange);
    TypedGuess(target, target, maxRange);
    SecondTurnWins([a, b], results, difficulty, elapsedNanos);
  }

  /** Typing `help` uses up the turn: the attempt is counted and the next
      player is asked, and the same holds for a non-number. */
  lemma HelpPassesTheTurn(a: string, b: string, target: int, maxRange: int, difficulty: string, elapsedNanos: nat, line: string)
    requires Normalize(line) == "help" || Atoi(Normalize(line)).None?
    ensures var s := RunSession([a, b], Outcomes([Line(line), Line(Itoa(target) + "\n")], target, maxRange), difficulty, elapsedNanos);
            && s.attempts == 2 && s.log[0].player == a && s.log[1].player == b
            && !s.log[0].result.valid && s.won
  {
    assert Atoi(Normalize(line)).None? by {
      if Normalize(line) == "help" {
        assert "help"[0] == 'h';
      }
    }
    NonGuessesAreInvalid(Line(line), target, maxRange);
    var results := Outcomes([Line(line), Line(Itoa(target) + "\n")], target, maxRange);
    TypedGuess(target, target, maxRange);
    SecondTurnWins([a, b], results, difficulty, elapsedNanos);
  }

  /** Two turns where the first misses and the second hits: the second
      player wins on the second attempt. */
  lemma SecondTurnWins(players: seq<string>, results: seq<TurnResult>, difficulty: string, elapsedNanos: nat)
    requires |players| == 2 && |results| == 2
    requires !results[0].correct && results[1].correct
    ensures var s := RunSession(players, results, difficulty, elapsedNanos);
            && s.won && s.attempts == 2 && s.scores == map[players[1] := CalculateScore(2, difficulty, elapsedNanos)]
            && s.log == [Play(players[0], results[0]), Play(players[1], results[1])]
  {
    SessionEndsAtFirstCorrect(players, results, difficulty, elapsedNanos, 1);
    var s := RunSession(players, results, difficulty, elapsedNanos);
    assert s.log[0] == Play(players[0 % 2], results[0]);
    assert s.log[1] == Play(players[1 % 2], results[1]);
  }

  /** A lone player who guesses the target first time on easy, within five
      seconds, scores 990: one attempt already costs ten points. */
  lemma SoloFirstGuess(name: string, target: int, elapsedNanos: nat)
    requires 1 <= target <= EasyMaxRange && elapsedNanos < 5 * NanosPerSecond
    ensures var s := RunSession([name], Outcomes([Line(Itoa(target) + "\n")], target, EasyMaxRange), "easy", elapsedNanos);
            s.won && s.attempts == 1 && s.scores == map[name := 990]
  {
    var results := Outcomes([Line(Itoa(target) + "\n")], target, EasyMaxRange);
    TypedGuess(target, target, EasyMaxRange);
    SessionEndsAtFirstCorrect([name], results, "easy", elapsedNanos, 0);
    FirstGuessScores(elapsedNanos);
  }
}

=== FILE: text.dfy ===
/** The string and integer utilities the game relies on: Go's `strings.TrimSpace`
    and `strings.ToLower`, `strconv.Atoi` and decimal formatting (`%d`), and the
    game's own `contains`, `min` and `max` helpers. */
module Text {
  import opened Options

  // ---------------------------------------------------------------------------
  // White space and trimming
  // ---------------------------------------------------------------------------

  /** The characters Go's `unicode.IsSpace` reports as white space. */
  predicate IsSpace(c: char) {
    || c == ' ' || c == '\t' || c == '\n' || c == '\r'
    || c == '\U{000B}' || c == '\U{000C}' || c == '\U{0085}' || c == '\U{00A0}'
    || c == '\U{1680}' || ('\U{2000}' <= c <= '\U{200A}')
    || c == '\U{2028}' || c == '\U{2029}' || c == '\U{202F}' || c == '\U{205F}'
    || c == '\U{3000}'
  }

  /** The length of the run of white space that starts `s`. */
  function LeadingSpaces(s: string): (n: nat)
    ensures n <= |s|
    ensures forall k :: 0 <= k < n ==> IsSpace(s[k])
    ensures n < |s| ==> !IsSpace(s[n])
    decreases |s|
  {
    if |s| == 0 || !IsSpace(s[0]) then 0 else 1 + LeadingSpaces(s[1..])
  }

  /** The length of the run of white space that ends `s`. */
  function TrailingSpaces(s: string): (n: nat)
    ensures n <= |s|
    ensures forall k :: |s| - n <= k < |s| ==> IsSpace(s[k])
    ensures n < |s| ==> !IsSpace(s[|s| - n - 1])
    decreases |s|
  {
    if |s| == 0 || !IsSpace(s[|s| - 1]) then 0 else 1 + TrailingSpaces(s[..|s| - 1])
  }

  /** True when `s` holds white space only (in particular when it is empty). */
  predicate IsBlank(s: string) {
    forall k :: 0 <= k < |s| ==> IsSpace(s[k])
  }

  /** `strings.TrimSpace`: `s` without its leading and trailing white space. */
  function TrimSpace(s: string): (t: string)
    ensures |t| <= |s|
    ensures |t| > 0 ==> !IsSpace(t[0]) && !IsSpace(t[|t| - 1])
    ensures t == [] <==> IsBlank(s)
    ensures exists a, b :: 0 <= a <= b <= |s| && t == s[a..b] && IsBlank(s[..a]) && IsBlank(s[b..])
  {
    var a := LeadingSpaces(s);
    var b := |s| - TrailingSpaces(s[a..]);
    assert a < |s| ==> b > a;
    assert IsBlank(s[..a]);
    assert IsBlank(s[b..]) by {
      forall k | 0 <= k < |s| - b ensures IsSpace(s[b..][k]) {
        assert s[b..][k] == s[a..][b - a + k];
      }
    }
    s[a..b]
  }

  // ---------------------------------------------------------------------------
  // Lower-casing
  // ---------------------------------------------------------------------------

  /** ASCII lower-casing of one character. */
  function LowerChar(c: char): char {
    if 'A' <= c <= 'Z' then (c as int + 32) as char else c
  }

  /** `strings.ToLower`, restricted to ASCII letters. */
  function ToLower(s: string): (t: string)
    ensures |t| == |s|
    ensures forall k :: 0 <= k < |s| ==> t[k] == LowerChar(s[k])
  {
    seq(|s|, k requires 0 <= k < |s| => LowerChar(s[k]))
  }

  /** Lower-casing twice is lower-casing once. */
  lemma ToLowerIdempotent(s: string)
    ensures ToLower(ToLower(s)) == ToLower(s)
  {
  }

  /** Trimming a trimmed string changes nothing. */
  lemma TrimSpaceIdempotent(s: string)
    ensures TrimSpace(TrimSpace(s)) == TrimSpace(s)
  {
    var t := TrimSpace(s);
    assert LeadingSpaces(t) == 0;
    assert TrailingSpaces(t) == 0;
    assert t[0..|t|] == t;
  }

  /** A string with no white space at either end is its own trim. */
  lemma TrimSpaceOfTrimmed(s: string)
    requires |s| > 0 ==> !IsSpace(s[0]) && !IsSpace(s[|s| - 1])
    ensures TrimSpace(s) == s
  {
    assert LeadingSpaces(s) == 0;
    assert s[0..] == s;
    assert TrailingSpaces(s) == 0;
  }

  /** Lower-casing leaves a string without ASCII capitals unchanged. */
  lemma ToLowerWithoutCapitals(s: string)
    requires forall k :: 0 <= k < |s| ==> !('A' <= s[k] <= 'Z')
    ensures ToLower(s) == s
  {
  }

  /** A trailing line terminator, as `ReadString('\n')` leaves it, is trimmed away. */
  lemma {:induction false} TrimSpaceDropsTrailingSpace(s: string, c: char)
    requires IsSpace(c)
    ensures TrimSpace(s + [c]) == TrimSpace(s)
  {
    if IsBlank(s) {
      assert IsBlank(s + [c]);
    } else {
      TrailingSpaceOfContent(s, c);
    }
  }

  lemma {:induction false} TrailingSpaceOfContent(s: string, c: char)
    requires IsSpace(c) && !IsBlank(s)
    ensures TrimSpace(s + [c]) == TrimSpace(s)
  {
    var s' := s + [c];
    LeadingSpacesAppend(s, c);
    var a := LeadingSpaces(s);
    assert s'[a..] == s[a..] + [c];
    assert s'[a..][..|s'[a..]| - 1] == s[a..];
    assert TrailingSpaces(s'[a..]) == 1 + TrailingSpaces(s[a..]);
    var b := |s| - TrailingSpaces(s[a..]);
    assert s'[a..b] == s[a..b];
  }

  lemma {:induction false} LeadingSpacesAppend(s: string, c: char)
    requires !IsBlank(s)
    ensures LeadingSpaces(s + [c]) == LeadingSpaces(s)
    decreases |s|
  {
    if IsSpace(s[0]) {
      assert (s + [c])[1..] == s[1..] + [c];
      LeadingSpacesAppend(s[1..], c);
    }
  }

  // ---------------------------------------------------------------------------
  // Decimal integers: strconv.Atoi and %d
  // ---------------------------------------------------------------------------

  predicate IsDigit(c: char) {
    '0' <= c <= '9'
  }

  predicate AllDigits(s: string) {
    forall k :: 0 <= k < |s| ==> IsDigit(s[k])
  }

  function DigitValue(c: char): nat
    requires IsDigit(c)
  {
    c as int - '0' as int
  }

  function DigitChar(d: nat): (c: char)
    requires d < 10
    ensures IsDigit(c) && DigitValue(c) == d
  {
    ('0' as int + d) as char
  }

  /** The value of a run of decimal digits, most significant first. */
  function DigitsValue(s: string): nat
    requires AllDigits(s)
    decreases |s|
  {
    if |s| == 0 then 0 else 10 * DigitsValue(s[..|s| - 1]) + DigitValue(s[|s| - 1])
  }

  /** The syntax `strconv.Atoi` accepts in base 10: an optional sign and at
      least one decimal digit, nothing else (no white space, no underscores). */
  predicate IsIntLiteral(s: string) {
    && |s| > 0
    && if s[0] == '+' || s[0] == '-' then |s| > 1 && AllDigits(s[1..]) else AllDigits(s)
  }

  /** `strconv.Atoi` on an unbounded integer: `None` for a syntax error. */
  function Atoi(s: string): (r: Option<int>)
    ensures r.Some? <==> IsIntLiteral(s)
    ensures r.Some? && s[0] == '-' ==> r.value <= 0
    ensures r.Some? && s[0] != '-' ==> r.value >= 0
  {
    if |s| == 0 then None
    else if s[0] == '+' || s[0] == '-' then
      var digits := s[1..];
      if |digits| == 0 || !AllDigits(digits) then None
      else
        var magnitude: int := DigitsValue(digits);
        Some(if s[0] == '-' then -magnitude else magnitude)
    else if AllDigits(s) then Some(DigitsValue(s))
    else None
  }

  /** Decimal notation of a natural number, as `%d` prints it: digits only,
      no leading zero, and reading it back gives the number. */
  function NatToString(n: nat): (s: string)
    ensures |s| > 0 && AllDigits(s)
    ensures DigitsValue(s) == n
    ensures s[0] == '0' ==> s == "0"
    decreases n
  {
    if n < 10 then [DigitChar(n)]
    else
      var prefix := NatToString(n / 10);
      var s := prefix + [DigitChar(n % 10)];
      assert s[..|s| - 1] == prefix;
      s
  }

  /** Decimal notation of any integer, as `%d` and `strconv.Itoa` print it:
      a minus sign exactly for negative numbers, no leading zero, and
      `strconv.Atoi` reads it back exactly. */
  function Itoa(n: int): (s: string)
    ensures Atoi(s) == Some(n)
    ensures IsIntLiteral(s)
    ensures forall k :: 0 < k < |s| ==> IsDigit(s[k])
    ensures IsDigit(s[0]) || s[0] == '-'
    ensures IsDigit(s[|s| - 1])
    ensures s[0] == '-' <==> n < 0
    ensures n == 0 <==> s == "0"
    ensures var digits := if n < 0 then s[1..] else s; digits[0] == '0' ==> digits == "0"
  {
    if n < 0 then
      var s := "-" + NatToString(-n);
      assert s[1..] == NatToString(-n);
      s
    else NatToString(n)
  }

  /** Different numbers print differently. */
  lemma ItoaInjective(a: int, b: int)
    requires Itoa(a) == Itoa(b)
    ensures a == b
  {
    assert Atoi(Itoa(a)) == Some(a);
  }

  /** A `+` sign in front of a run of digits changes nothing. */
  lemma AtoiPlusSign(d: string)
    requires |d| > 0 && AllDigits(d)
    ensures Atoi("+" + d) == Atoi(d)
  {
    assert ("+" + d)[1..] == d;
  }

  /** A `-` sign in front of a run of digits negates its value. */
  lemma AtoiMinusSign(d: string)
    requires |d| > 0 && AllDigits(d)
    ensures Atoi("-" + d) == Some(-Atoi(d).value)
  {
    assert ("-" + d)[1..] == d;
  }

  /** A leading zero in front of a run of digits changes nothing. */
  lemma AtoiLeadingZero(d: string)
    requires |d| > 0 && AllDigits(d)
    ensures Atoi("0" + d) == Atoi(d)
  {
    LeadingZeroValue(d);
  }

  lemma {:induction false} LeadingZeroValue(d: string)
    requires AllDigits(d)
    ensures AllDigits("0" + d) && DigitsValue("0" + d) == DigitsValue(d)
    decreases |d|
  {
    var z := "0" + d;
    if |d| == 0 {
      assert z[..0] == "";
    } else {
      assert z[..|z| - 1] == "0" + d[..|d| - 1];
      LeadingZeroValue(d[..|d| - 1]);
    }
  }

  /** `Atoi` ignores leading zeros and a `+` sign, as `strconv.Atoi` does. */
  lemma AtoiExamples()
    ensures Atoi("007") == Some(7)
    ensures Atoi("+42") == Some(42)
    ensures Atoi("-3") == Some(-3)
    ensures Atoi("") == None && Atoi("-") == None && Atoi("4 2") == None && Atoi("1_0") == None
  {
    assert "007"[..2] == "00" && "00"[..1] == "0" && "0"[..0] == "";
    assert "+42"[1..] == "42" && "42"[..1] == "4";
    assert "-3"[1..] == "3";
    assert !IsDigit("4 2"[1]);
    assert !IsDigit("1_0"[1]);
  }

  // ---------------------------------------------------------------------------
  // The game's own helpers
  // ---------------------------------------------------------------------------

  /** `contains`: linear membership search in a slice of names. */
  function Contains(xs: seq<string>, x: string): (b: bool)
    ensures b <==> x in xs
    decreases |xs|
  {
    if |xs| == 0 then false
    else if xs[0] == x then true
    else
      assert xs == [xs[0]] + xs[1..];
      Contains(xs[1..], x)
  }

  /** `min`: the smaller of two integers. */
  function Min(a: int, b: int): (m: int)
    ensures m <= a && m <= b
    ensures m == a || m == b
  {
    if a < b then a else b
  }

  /** `max`: the larger of two integers. */
  function Max(a: int, b: int): (m: int)
    ensures m >= a && m >= b
    ensures m == a || m == b
  {
    if a > b then a else b
  }
}

=== FILE: turn.dfy ===
/** One player's turn as `handlePlayerTurn` resolves it, with the concurrent
    read-versus-deadline race replaced by its three possible results: a line
    was read, the read failed, or the time limit expired first. */
module Turn {
  import opened Options
  import opened Text
  import opened Hint

  /** What the race of one turn delivered. */
  datatype TurnInput =
    | Line(text: string)   // `ReadString('\n')` succeeded; the line still ends in '\n'
    | ReadError            // `ReadString` returned an error (end of input included)
    | Timeout              // `time.After(TimeLimit)` fired before any line arrived

  /** `TurnResult`: whether the guess hit the target, whether it was an
      acceptable guess, the feedback line, and the number guessed (0 when none). */
  datatype TurnResult = TurnResult(correct: bool, valid: bool, hint: string, value: int)

  const ReadErrorHint := "Input reading error occurred"
  const HelpHint := "Help displayed. Please enter your guess:"
  const NotANumberHint := "Please enter a valid number (digits only)"
  const TimeoutHint := "Timeout - turn skipped"

  /** The hint of an out-of-range guess, naming the upper bound in decimal. */
  function RangeHint(maxRange: int): string {
    "Number must be between 1 and " + Itoa(maxRange)
  }

  /** How a line is normalised before it is interpreted. */
  function Normalize(text: string): string {
    TrimSpace(ToLower(text))
  }

  /** The judgement of a parsed guess: equality with the target is decided
      first, then the range, then the direction. */
  function ClassifyGuess(guess: int, target: int, maxRange: int): (r: TurnResult)
    ensures r.value == guess
    ensures r.correct <==> guess == target
    ensures r.correct ==> r.valid
  {
    if guess == target then TurnResult(true, true, "", guess)
    else if guess < 1 || guess > maxRange then TurnResult(false, false, RangeHint(maxRange), guess)
    else if guess < target then TurnResult(false, true, "Too low! " + ProximityHint(target - guess, maxRange), guess)
    else TurnResult(false, true, "Too high! " + ProximityHint(guess - target, maxRange), guess)
  }

  /** The outcome of one turn. */
  function ClassifyTurn(input: TurnInput, target: int, maxRange: int): (r: TurnResult)
    ensures r.correct ==> r.valid
    ensures r.correct <==> input.Line? && Atoi(Normalize(input.text)) == Some(target)
    ensures r.valid ==> input.Line? && Atoi(Normalize(input.text)).Some?
    ensures input.Line? && Atoi(Normalize(input.text)).Some? ==>
              r == ClassifyGuess(Atoi(Normalize(input.text)).value, target, maxRange)
  {
    match input
    case ReadError => TurnResult(false, false, ReadErrorHint, 0)
    case Timeout => TurnResult(false, false, TimeoutHint, 0)
    case Line(text) =>
      var t := Normalize(text);
      if t == "help" then TurnResult(false, false, HelpHint, 0)
      else
        match Atoi(t)
        case None => TurnResult(false, false, NotANumberHint, 0)
        case Some(guess) => ClassifyGuess(guess, target, maxRange)
  }

  /** The four outcomes of a parsed guess when the target lies in its range:
      a hit, an out-of-range guess, or a valid miss with a direction and a
      proximity phrase for the distance. */
  lemma ClassifyGuessCases(guess: int, target: int, maxRange: int)
    requires 1 <= target <= maxRange
    ensures var r := ClassifyGuess(guess, target, maxRange);
            && (r.valid <==> 1 <= guess <= maxRange)
            && (guess == target ==> r.correct && r.valid && r.value == guess)
            && (!(1 <= guess <= maxRange) ==> !r.correct && !r.valid && r.hint == "Number must be between 1 and " + Itoa(maxRange))
            && (1 <= guess < target ==> !r.correct && r.valid && r.hint == "Too low! " + ProximityHint(target - guess, maxRange))
            && (target < guess <= maxRange ==> !r.correct && r.valid && r.hint == "Too high! " + ProximityHint(guess - target, maxRange))
  {
  }

  /** Everything that is not a number (including `help` in any case and
      padding), a failed read and a timeout are invalid and never correct. */
  lemma NonGuessesAreInvalid(input: TurnInput, target: int, maxRange: int)
    requires !input.Line? || Atoi(Normalize(input.text)).None?
    ensures var r := ClassifyTurn(input, target, maxRange);
            && !r.correct && !r.valid && r.value == 0
            && (input.Timeout? ==> r.hint == "Timeout - turn skipped")
            && (input.ReadError? ==> r.hint == "Input reading error occurred")
            && (input.Line? && Normalize(input.text) == "help" ==> r.hint == "Help displayed. Please enter your guess:")
            && (input.Line? && Normalize(input.text) != "help" ==> r.hint == "Please enter a valid number (digits only)")
  {
  }

  /** A player who types the decimal form of `guess` and presses Enter gets
      exactly the judgement of `guess`. */
  lemma TypedGuess(guess: int, target: int, maxRange: int)
    ensures ClassifyTurn(Line(Itoa(guess) + "\n"), target, maxRange) == ClassifyGuess(guess, target, maxRange)
  {
    NormalizeTypedNumber(guess);
  }

  /** The decimal form of a number followed by a newline normalises to itself. */
  lemma NormalizeTypedNumber(guess: int)
    ensures Normalize(Itoa(guess) + "\n") == Itoa(guess)
  {
    NormalizeNumberLine(Itoa(guess));
  }

  lemma NormalizeNumberLine(s: string)
    requires |s| > 0 && (IsDigit(s[0]) || s[0] == '-') && IsDigit(s[|s| - 1])
    requires forall k :: 0 < k < |s| ==> IsDigit(s[k])
    ensures Normalize(s + "\n") == s
  {
    LowerNumberLine(s);
    assert !IsSpace(s[0]) && !IsSpace(s[|s| - 1]);
    TrimSpaceOfTrimmed(s);
    TrimSpaceDropsTrailingSpace(s, '\n');
    calc {
      Normalize(s + "\n");
      TrimSpace(ToLower(s + "\n"));
      TrimSpace(s + "\n");
      TrimSpace(s);
      s;
    }
  }

  lemma LowerNumberLine(s: string)
    requires |s| > 0 && (IsDigit(s[0]) || s[0] == '-')
    requires forall k :: 0 < k < |s| ==> IsDigit(s[k])
    ensures ToLower(s + "\n") == s + "\n"
  {
    var line := s + "\n";
    assert forall k :: 0 <= k < |line| ==> !('A' <= line[k] <= 'Z');
    ToLowerWithoutCapitals(line);
  }

  /** A line ending in a carriage return and a newline, as typed on Windows,
      is judged like the bare number. */
  lemma CrLfLineIsJudged()
    ensures ClassifyTurn(Line("50\r\n"), 70, 100) == TurnResult(false, true, "Too low! Getting warmer...", 50)
  {
    CrLfIsTrimmed();
    assert Atoi("50") == Some(50) by { assert "50"[..1] == "5" && "5"[..0] == ""; }
    TooLowGettingWarmer();
  }

  lemma CrLfIsTrimmed()
    ensures Normalize("50\r\n") == "50"
  {
    ToLowerWithoutCapitals("50\r\n");
    CrLfTrim();
  }

  lemma CrLfTrim()
    ensures TrimSpace("50\r\n") == "50"
  {
    CrTrim();
    assert "50\r" + ['\n'] == "50\r\n";
    TrimSpaceDropsTrailingSpace("50\r", '\n');
  }

  lemma CrTrim()
    ensures TrimSpace("50\r") == "50"
  {
    assert "50" + ['\r'] == "50\r";
    TrimSpaceDropsTrailingSpace("50", '\r');
    TrimSpaceOfTrimmed("50");
  }

  /** A guess of 50 against 70 in the range 1..100 is 20% away. */
  lemma TooLowGettingWarmer()
    ensures ClassifyGuess(50, 70, 100) == TurnResult(false, true, "Too low! Getting warmer...", 50)
  {
  }
}
